=== FILE: README.md ===
# CC1101 beacon radio control, modelled in Dafny

This project models the radio control logic of a weather-station beacon. The
beacon drives a CC1101 sub-GHz transceiver over SPI and emits a short carrier
pulse every few seconds. The model covers two parts of `src/main.rs`:

- **The frequency-register calculator** (`RadioConfig::frequency_registers`).
  It turns a target frequency in Hz into the synthesizer word
  `freq_hz * 65536 / 26_000_000` and splits the word into FREQ0, FREQ1 and
  FREQ2.
- **The command sequencing.** This covers the identity gate (`verify_radio`),
  the configuration sequence (`init_radio`), one carrier pulse
  (`transmit_pulse`), and `main`'s verify, configure, then beacon flow. Each is
  modelled as the sequence of events it issues on the register transport.

Modules, one file each:

- `base.dfy` (`Base`): the `u8`, `u32` and `u64` integer types, and `Option`.
- `synth.dfy` (`Synth`): the synthesizer word, its byte fields, and the
  frequency the registers select.
- `cc1101.dfy` (`Cc1101`): symbolic names for the strobes, registers and
  register values the beacon uses.
- `transport.dfy` (`Transport`): the transport as an oracle, and `Exec`.
  `Exec` runs a straight-line program of transactions and delays with
  fail-fast semantics.
- `radio.dfy` (`Radio`): `verify_radio`, `init_radio` and `transmit_pulse`.
- `beacon.dfy` (`Beacon`): the TX loop and `main`'s flow.

The transport is a function `oracle: nat -> Reply`. It answers the k-th
transaction with `Ok(byte)` or `Err`; transactions are counted from the first
identity read, and delays are not counted. Every `.unwrap()` in the source
panics on an error, and the panic handler (`panic_halt`) halts the processor.
So in `init_radio`, `transmit_pulse` and the loop, the first error ends the
run: the failed transaction is the last event, and nothing is issued after it
(`Halted`). `verify_radio` unwraps nothing. It always issues both identity
reads. If either read failed, `main` spins for ever without issuing another
transaction (`Spinning`). The endless TX loop is modelled by its first `n`
passes; a program still running after those passes is `Beaconing`.

The 22-bit word is `FREQ2:FREQ1:FREQ0`. For an unsigned value, masking with
`2^k - 1` is `% 2^k` and shifting right by `k` is `/ 2^k`, so the model takes
the byte fields with `%` and `/` on naturals.

Three facts about the code that the model makes explicit:

- For 433.5 MHz, the formula gives
  `433_500_000 * 65536 / 26_000_000 = 1_092_686 = 0x10AC4E`
  (`Synth.AlternativeFrequencyRegisters`).
- `init_radio`'s sequence contains all eight register writes, with no
  condition on any of them, and every one is unwrapped, the GDO writes to
  IOCFG0 and IOCFG2 included. So a transport error on any of them halts
  the program (`Radio.InitRadioIssues`,
  `Radio.InitRadioFailFast`).
- `verify_radio` accepts any PARTNUM and VERSION bytes that read without a
  transport error. It does not compare them with expected values
  (`Radio.VerifyRadio`).

## Model

| member | source | states |
|---|---|---|
| Synth.FreqValue | src/main.rs:40 | The u64 product `freq_hz * 65536` wraps modulo 2^64 and the division truncates: `v * 26e6 <= product < (v + 1) * 26e6`. Below 2^48 Hz there is no wrap, and the bound holds for the exact product. |
| Synth.Split | src/main.rs:41-43 | The three fields are bytes, FREQ2 has its top two bits clear, and the fields reassemble to `v mod 2^22`. |
| Synth.FrequencyRegisters | src/main.rs:38-45 | `frequency_registers` gives `freq2 < 64` and `freq2*65536 + freq1*256 + freq0 == freq_value mod 2^22`. |
| Synth.SplitWordRoundTrip | src/main.rs:41-43 | Splitting the word spelled by any triple with `freq2 < 64` gives that triple back. So the split loses nothing within 22 bits. |
| Synth.FreqValueMonotone | src/main.rs:40 | While the product does not wrap, a higher target never gives a smaller word. |
| Synth.WordFitsIff | src/main.rs:40-43 | For targets below 2^48 Hz, the word fits in 22 bits if and only if the target is below 1.664 GHz. |
| Synth.ExactBelowLimit | src/main.rs:40-43 | Below 1.664 GHz the registers hold `freq_value` exactly, and `0 <= freq_hz*65536 - word*26e6 < 26e6`. The synthesized frequency undershoots by less than one step of 26e6/65536 Hz. |
| Synth.UndershootBound | src/main.rs:40-43 | Below 1.664 GHz, the frequency the registers select, rounded down to whole Hz, is at most the target and at most 397 Hz below it. |
| Synth.SupportedBandRegisters | src/main.rs:26 | For any target in the 300-348, 387-464 or 779-928 MHz bands, the word is exact and FREQ2 lies in 0x0B..0x23. |
| Synth.DefaultFrequencyRegisters | src/main.rs:27 | The configured 432.5 MHz gives the word 0x10A276, so `(freq0, freq1, freq2) = (0x76, 0xA2, 0x10)`. |
| Synth.AlternativeFrequencyRegisters | src/main.rs:38-44 | 433.5 MHz gives the word 0x10AC4E, so `(freq0, freq1, freq2) = (0x4E, 0xAC, 0x10)`. |
| Transport.Exec | src/main.rs:4 | Runs a straight-line program of transactions and delays with fail-fast semantics: an `Err` on any unwrapped transaction is the last event, because `panic_halt` halts. It has no contract of its own; the next five rows carry it. |
| Transport.ExecPrefix | src/main.rs:57-87 | A sequence of unwrapped transactions issues a prefix of its instructions, in order. The run's transaction count is the number of transactions issued. |
| Transport.ExecHaltsIff | src/main.rs:4 | A run halts if and only if one of its transactions gets an error from the transport. |
| Transport.ExecFailFast | src/main.rs:4 | A halted run ends at its failed transaction, and every earlier transaction succeeded. A run that did not halt issued the whole program without an error. |
| Transport.ExecAppend | src/main.rs:156-165 | Running `p` then `q` is running `p`, then `q` against the answers that come after `p`'s transactions, unless `p` halted. A halted run issues nothing more. |
| Transport.ExecReliable | src/main.rs:57-87 | Against a transport that never fails, a program runs to completion and issues exactly its instructions. |
| Radio.VerifyRadio | src/main.rs:93-109 | PARTNUM then VERSION are both read, whatever the first read returned. The gate passes if and only if both reads are `Ok`, and it then reports the two bytes read. |
| Radio.VerifyRadioOnlyReads | src/main.rs:98-99 | The identity gate issues exactly two reads, PARTNUM then VERSION, with no strobe and no write. |
| Radio.ConfigWrites | src/main.rs:60-87 | The eight (register, value) pairs `init_radio` writes. It has no contract of its own; `Radio.InitStepsFacts` states its order and values. |
| Radio.InitSteps | src/main.rs:57-87 | The idle strobe, the 10 ms settle, then the eight writes. It has no contract of its own; `Radio.InitStepsFacts` and `Radio.DefaultInitWrites` carry it. |
| Radio.InitRadio | src/main.rs:48-91 | `init_radio` as a fail-fast run of its steps. It has no contract of its own; `Radio.InitRadioFailFast` and `Radio.InitRadioIssues` carry it. |
| Radio.InitStepsFacts | src/main.rs:57-87 | `init_radio` issues one SIDLE, then 10 ms, then eight writes in the order FREQ0, FREQ1, FREQ2, MDMCFG2, PKTCTRL0, PKTLEN, IOCFG0, IOCFG2, and the writes are exactly `Radio.ConfigWrites`. It makes no reads. The FREQ bytes spell the target's word, and the rest are 2-FSK without sync, variable length, 255, 0x06 and 0x29. |
| Radio.DefaultInitWrites | src/main.rs:60-63 | For 432.5 MHz, the first three writes put 0x76, 0xA2 and 0x10 into FREQ0, FREQ1 and FREQ2. |
| Radio.InitRadioFailFast | src/main.rs:48-91 | `init_radio` completes if and only if its nine transactions are answered. Otherwise it halts at the first failure. Either way it issues a prefix of its sequence and reads nothing. |
| Radio.InitRadioIssues | src/main.rs:57-87 | When its nine transactions succeed, `init_radio` issues SIDLE first, then 10 ms, then the eight writes in order: the trace is exactly its steps, every one answered. Exactly one strobe is issued, and FREQ0-FREQ2 spell the target's word. |
| Radio.PulseSteps | src/main.rs:115-121 | The three strobes and two delays of one pulse. It has no contract of its own; `Radio.PulseStepsFacts` carries it. |
| Radio.TransmitPulse | src/main.rs:111-122 | `transmit_pulse` as a fail-fast run of its steps. It has no contract of its own; `Radio.TransmitPulseFailFast` and `Radio.TransmitPulseIssues` carry it. |
| Radio.PulseStepsFacts | src/main.rs:115-121 | A pulse is the strobes SIDLE, STX, SIDLE and the delays 10 ms and 100 ms, with no register read or write. |
| Radio.TransmitPulseFailFast | src/main.rs:111-122 | `transmit_pulse` completes if and only if its three strobes are answered. Otherwise it halts at the first failure. It never writes or reads a register. |
| Radio.TransmitPulseIssues | src/main.rs:115-121 | When its three strobes are answered, a pulse is exactly SIDLE, 10 ms, STX, 100 ms, SIDLE. The hold in transmit is exactly 100 ms. |
| Beacon.RepeatFacts | src/main.rs:161-165 | n loop passes issue 3n transactions: the strobes SIDLE, STX, SIDLE repeated n times and the delays 10, 100 and the interval repeated n times. They make no writes and no reads. |
| Beacon.TxLoop | src/main.rs:161-165 | The first n passes of the loop, each run against the answers left after the passes before it, stopping for good at a halted pass. It has no contract of its own; the next five rows carry it. |
| Beacon.Iteration | src/main.rs:162-164 | One loop pass: the pulse's steps, then the interval delay. It has no contract of its own; `Beacon.IterationRun` and `Beacon.RepeatFacts` carry it. |
| Beacon.IterationRun | src/main.rs:162-164 | One loop pass is `transmit_pulse`, then, unless the pulse halted, `delay_ms(tx_interval_ms)`. A halted pulse ends the pass without the delay. |
| Beacon.TxLoopIsRepeat | src/main.rs:161-165 | n passes of the loop, each a pulse then `delay_ms(tx_interval_ms)`, equal the fail-fast run of n copies of that pass. |
| Beacon.TxLoopFailFast | src/main.rs:161-165 | n passes complete if and only if their 3n strobes are answered. Otherwise the loop halts at the first failure. It never writes or reads a register. |
| Beacon.TxLoopIssues | src/main.rs:161-165 | When its 3n strobes are answered, the loop's trace is n repetitions of the pulse, each followed by the transmit interval. |
| Beacon.TxLoopExtends | src/main.rs:161-165 | One more pass only adds events at the end. Once the loop has halted, further passes add nothing. |
| Beacon.MainGate | src/main.rs:150-152 | The identity reads come first. The program spins at the gate if and only if either read fails, and then it has issued no strobe and no write. |
| Beacon.Main | src/main.rs:150-165 | `main` from the identity gate on: spin if the gate fails, else `init_radio`, else n loop passes. It has no contract of its own; the `Beacon.Main*` rows below carry it. |
| Beacon.MainSteps | src/main.rs:150-165 | The instructions `main` would issue for n passes when nothing fails: the two identity reads, `init_radio`'s steps, then n loop passes. It has no contract of its own; `Beacon.MainInOrder`, `Beacon.MainFailFast` and `Beacon.MainReliable` carry it. |
| Beacon.MainInOrder | src/main.rs:150-165 | Against any transport, the events issued are a prefix of the identity reads, then `init_radio`'s steps, then n loop passes, in that order. |
| Beacon.MainFailFast | src/main.rs:150-165 | A halted program ends at its failed transaction, and every earlier transaction succeeded. The program is still beaconing after n passes if and only if all 11 + 3n transactions were answered. Whatever the transport does, the events issued are a prefix of the identity reads, `init_radio`'s steps and n loop passes. |
| Beacon.MainBeaconingComplete | src/main.rs:150-165 | When the transport answers the first 11 + 3n transactions, whatever it answers later, the program is still beaconing after n passes, has issued exactly the identity reads, `init_radio`'s steps and n loop passes, and every transaction it issued succeeded. |
| Beacon.MainReliable | src/main.rs:150-165 | With a transport that never fails, the trace is exactly the two identity reads, then `init_radio`'s sequence, then n pulse-and-wait passes. That is one SIDLE before configuration, SIDLE, STX, SIDLE per pulse, and eight writes. |
| Beacon.MainExtends | src/main.rs:161-165 | The trace for n + 1 passes extends the trace for n passes. A program that spins or has halted issues nothing more. |
| Beacon.DefaultConfigFrequencyWrites | src/main.rs:156 | With the shipped configuration and a transport that never fails, the first three writes are FREQ0 = 0x76, FREQ1 = 0xA2 and FREQ2 = 0x10. |

## Left out

- The conversion of `frequency_mhz * 1_000_000.0` to `u64` (src/main.rs:39) is left out. It is floating point with a saturating cast, so the model's input is `freq_hz` as a `u64`. For the shipped 432.5 MHz the f32 product is exact, so `freq_hz = 432_500_000`.
- Synth.FreqValue: models the product wrapping modulo 2^64, as it does without overflow checks. A build with overflow checks would panic, and so halt, instead. That happens only for `freq_hz >= 2^48`, far beyond any band.
- The bit encodings from the chip driver's `MDMCFG2` and `PKTCTRL0` builders are left out, and so are the register addresses and command codes (src/main.rs:68-79). They are foreign library code. The model names these values by the settings they carry.
- Serial diagnostics (`ufmt::uwriteln!`) are left out. Their results are ignored or infallible, and they are pure I/O. The baud rate is kept in `Config` but unused.
- Peripheral, pin and SPI setup, `ExclusiveDevice::new_no_delay` and `Cc1101::new` are left out (src/main.rs:126-148). This is hardware plumbing; transaction numbering starts at the first identity read.
- `delay_ms` timing is left out. Delays are events that carry their millisecond argument.
- The chip's internal idle and transmit states are left out. The source never reads them back, so the model records only the strobes issued.
- The non-terminating loops are left out. The TX loop is modelled by its first n passes; the `loop {}` after a failed gate and the panic handler's halt are the terminal states `Spinning` and `Halted`.
- Radio.TransmitPulseIssues: states the event order and that every strobe succeeded. It does not state the data byte in each strobe's reply, which the source ignores.

=== FILE: base.dfy ===
/** Fixed-width unsigned integers and an optional value, shared by the other modules. */
module Base {

  const U64Modulus: int := 0x1_0000_0000_0000_0000

  newtype u8 = x: int | 0 <= x < 0x100
  newtype u32 = x: int | 0 <= x < 0x1_0000_0000
  newtype u64 = x: int | 0 <= x < 0x1_0000_0000_0000_0000

  datatype Option<+T> = None | Some(value: T)
}

=== FILE: beacon.dfy ===
/**
  `main`'s radio flow: the identity gate, then configuration, then the beacon
  loop of pulse-and-wait. The endless loop is modelled by its first n passes;
  a program that halted or is spinning at the gate issues nothing more.
*/
module Beacon {
  import opened Base
  import opened Synth
  import opened Cc1101
  import opened Transport
  import opened Radio

  /** One pass of the beacon loop: a pulse, then the transmit interval. */
  function Iteration(intervalMs: u32): seq<Instr> {
    PulseSteps() + [DelayMs(intervalMs)]
  }

  /** n copies of a sequence, back to back. */
  function Repeat<T>(s: seq<T>, n: nat): seq<T> {
    if n == 0 then [] else s + Repeat(s, n - 1)
  }

  /** The first n passes of the beacon loop; a failed strobe halts the loop for good. */
  function TxLoop(n: nat, intervalMs: u32, start: nat, oracle: Oracle): Run
    decreases n
  {
    if n == 0 then Run([], 0, false)
    else
      var pass := Exec(Iteration(intervalMs), start, oracle);
      if pass.halted then pass
      else Then(pass, TxLoop(n - 1, intervalMs, start + pass.calls, oracle))
  }

  /** n passes of the loop issue n pulses, each followed by the interval, and only strobes. */
  lemma {:induction false} RepeatFacts(intervalMs: u32, n: nat)
    ensures CallCount(Repeat(Iteration(intervalMs), n)) == 3 * n
    ensures Strobes(Repeat(Iteration(intervalMs), n)) == Repeat([SIDLE, STX, SIDLE], n)
    ensures Delays(Repeat(Iteration(intervalMs), n)) == Repeat([SettleMs, PulseMs, intervalMs], n)
    ensures Writes(Repeat(Iteration(intervalMs), n)) == [] && Reads(Repeat(Iteration(intervalMs), n)) == []
  {
    if n > 0 {
      var it := Iteration(intervalMs);
      PulseStepsFacts();
      FiltersAppend(PulseSteps(), [DelayMs(intervalMs)]);
      assert [DelayMs(intervalMs)][1..] == [];
      FiltersAppend(it, Repeat(it, n - 1));
      RepeatFacts(intervalMs, n - 1);
    }
  }

  /** The loop is the straight-line program of n iterations, run fail-fast. */
  lemma {:induction false} TxLoopIsRepeat(n: nat, intervalMs: u32, start: nat, oracle: Oracle)
    ensures TxLoop(n, intervalMs, start, oracle) == Exec(Repeat(Iteration(intervalMs), n), start, oracle)
    decreases n
  {
    if n > 0 {
      var it := Iteration(intervalMs);
      var rest := Repeat(it, n - 1);
      assert Repeat(it, n) == it + rest;
      ExecAppend(it, rest, start, oracle);
      var pass := Exec(it, start, oracle);
      if !pass.halted {
        TxLoopIsRepeat(n - 1, intervalMs, start + pass.calls, oracle);
      }
    }
  }

  /** One pass against the transport: the pulse, then, unless it halted, the interval. */
  lemma IterationRun(intervalMs: u32, start: nat, oracle: Oracle)
    ensures TransmitPulse(start, oracle).halted ==> Exec(Iteration(intervalMs), start, oracle) == TransmitPulse(start, oracle)
    ensures !TransmitPulse(start, oracle).halted ==>
              Exec(Iteration(intervalMs), start, oracle) == Then(TransmitPulse(start, oracle), Run([Delayed(intervalMs)], 0, false))
  {
    var pulse := TransmitPulse(start, oracle);
    ExecAppend(PulseSteps(), [DelayMs(intervalMs)], start, oracle);
    assert [DelayMs(intervalMs)][1..] == [];
    assert Exec([DelayMs(intervalMs)], start + pulse.calls, oracle) == Run([Delayed(intervalMs)], 0, false);
  }

  /**
    The loop against the transport: n passes complete exactly when its 3n strobes
    are answered; otherwise it halts at the first failure. It never writes or reads
    a register.
  */
  lemma TxLoopFailFast(n: nat, intervalMs: u32, start: nat, oracle: Oracle)
    ensures !TxLoop(n, intervalMs, start, oracle).halted <==> OkFrom(oracle, start, 3 * n)
    ensures TxLoop(n, intervalMs, start, oracle).halted ==> EndsInFailure(TxLoop(n, intervalMs, start, oracle).events)
    ensures Shapes(TxLoop(n, intervalMs, start, oracle).events) <= Repeat(Iteration(intervalMs), n)
    ensures Writes(Shapes(TxLoop(n, intervalMs, start, oracle).events)) == []
    ensures Reads(Shapes(TxLoop(n, intervalMs, start, oracle).events)) == []
  {
    var p := Repeat(Iteration(intervalMs), n);
    TxLoopIsRepeat(n, intervalMs, start, oracle);
    RepeatFacts(intervalMs, n);
    ExecHaltsIff(p, start, oracle);
    ExecFailFast(p, start, oracle);
    ExecPrefix(p, start, oracle);
    PrefixFilters(Shapes(Exec(p, start, oracle).events), p);
  }

  /**
    With its 3n strobes answered, n passes of the loop are n pulses, each followed
    by the transmit interval: idle, transmit, idle strobes and nothing else.
  */
  lemma TxLoopIssues(n: nat, intervalMs: u32, start: nat, oracle: Oracle)
    requires OkFrom(oracle, start, 3 * n)
    ensures !TxLoop(n, intervalMs, start, oracle).halted
    ensures TxLoop(n, intervalMs, start, oracle).calls == 3 * n
    ensures Shapes(TxLoop(n, intervalMs, start, oracle).events) == Repeat(Iteration(intervalMs), n)
    ensures Strobes(Shapes(TxLoop(n, intervalMs, start, oracle).events)) == Repeat([SIDLE, STX, SIDLE], n)
    ensures Delays(Shapes(TxLoop(n, intervalMs, start, oracle).events)) == Repeat([SettleMs, PulseMs, intervalMs], n)
  {
    var p := Repeat(Iteration(intervalMs), n);
    TxLoopIsRepeat(n, intervalMs, start, oracle);
    RepeatFacts(intervalMs, n);
    ExecHaltsIff(p, start, oracle);
    ExecFailFast(p, start, oracle);
    ExecPrefix(p, start, oracle);
  }

  /**
    One more pass only adds events at the end; once the loop has halted, further
    passes add nothing.
  */
  lemma TxLoopExtends(n: nat, intervalMs: u32, start: nat, oracle: Oracle)
    ensures TxLoop(n, intervalMs, start, oracle).events <= TxLoop(n + 1, intervalMs, start, oracle).events
    ensures TxLoop(n, intervalMs, start, oracle).halted ==>
              TxLoop(n + 1, intervalMs, start, oracle) == TxLoop(n, intervalMs, start, oracle)
  {
    var it := Iteration(intervalMs);
    var first := Repeat(it, n);
    TxLoopIsRepeat(n, intervalMs, start, oracle);
    TxLoopIsRepeat(n + 1, intervalMs, start, oracle);
    RepeatSnoc(it, n);
    ExecAppend(first, it, start, oracle);
  }

  /** One more copy at the end is one more copy. */
  lemma {:induction false} RepeatSnoc<T>(s: seq<T>, n: nat)
    ensures Repeat(s, n + 1) == Repeat(s, n) + s
  {
    if n > 0 {
      RepeatSnoc(s, n - 1);
      assert Repeat(s, n + 1) == s + (Repeat(s, n - 1) + s);
    }
  }

  /** How the program ends up: spinning at the identity gate, halted by a failed transaction, or still beaconing. */
  datatype Terminal = Spinning | Halted | Beaconing

  /** The events `main` issues on the transport and where it ends up. */
  datatype Boot = Boot(events: seq<Event>, terminal: Terminal)

  /**
    `main` after the bus is set up, with the beacon loop cut after n passes: the
    identity gate (spin for ever if it fails), `init_radio`, then the loop.
    Transactions are numbered from the first identity read.
  */
  function Main(cfg: Config, n: nat, oracle: Oracle): Boot {
    var check := VerifyRadio(0, oracle);
    if check.identity.None? then Boot(check.events, Spinning)
    else
      var setup := InitRadio(cfg.freqHz, 2, oracle);
      if setup.halted then Boot(check.events + setup.events, Halted)
      else
        var beacon := TxLoop(n, cfg.txIntervalMs, 2 + setup.calls, oracle);
        Boot(check.events + setup.events + beacon.events, if beacon.halted then Halted else Beaconing)
  }

  /**
    The identity gate comes first whatever happens, and the program spins at it
    exactly when either identity read fails; a program spinning at the gate has
    issued no strobe and no register write.
  */
  lemma MainGate(cfg: Config, n: nat, oracle: Oracle)
    ensures |Main(cfg, n, oracle).events| >= 2
    ensures Main(cfg, n, oracle).events[..2] == VerifyRadio(0, oracle).events
    ensures Main(cfg, n, oracle).terminal == Spinning <==> !(oracle(0).Ok? && oracle(1).Ok?)
    ensures Main(cfg, n, oracle).terminal == Spinning ==>
              && Strobes(Shapes(Main(cfg, n, oracle).events)) == []
              && Writes(Shapes(Main(cfg, n, oracle).events)) == []
  {
    VerifyRadioOnlyReads(0, oracle);
    var check := VerifyRadio(0, oracle);
    var b := Main(cfg, n, oracle);
    if check.identity.Some? {
      var setup := InitRadio(cfg.freqHz, 2, oracle);
      if !setup.halted {
        var beacon := TxLoop(n, cfg.txIntervalMs, 2 + setup.calls, oracle);
        assert b.events == check.events + (setup.events + beacon.events);
      }
    }
  }

  /** The whole program's instructions for n passes: identity reads, `init_radio`, then the loop. */
  function MainSteps(cfg: Config, n: nat): seq<Instr> {
    [Call(Read(PARTNUM)), Call(Read(VERSION))] + InitSteps(cfg.freqHz) + Repeat(Iteration(cfg.txIntervalMs), n)
  }

  /** For every transport, the program issues its instructions in order, stopping early at most. */
  lemma MainInOrder(cfg: Config, n: nat, oracle: Oracle)
    ensures Shapes(Main(cfg, n, oracle).events) <= MainSteps(cfg, n)
  {
    var gate := [Call(Read(PARTNUM)), Call(Read(VERSION))];
    var init := InitSteps(cfg.freqHz);
    var loop := Repeat(Iteration(cfg.txIntervalMs), n);
    assert MainSteps(cfg, n) == gate + (init + loop);
    var check := VerifyRadio(0, oracle);
    var setup := InitRadio(cfg.freqHz, 2, oracle);
    InitRadioFailFast(cfg.freqHz, 2, oracle);
    ShapesAppend(check.events, setup.events);
    if check.identity.Some? && setup.halted {
      PrefixExtend(gate, Shapes(setup.events), init, loop);
    } else if check.identity.Some? {
      ExecFailFast(init, 2, oracle);
      InitRadioIssues(cfg.freqHz, 2, oracle);
      var beacon := TxLoop(n, cfg.txIntervalMs, 11, oracle);
      TxLoopFailFast(n, cfg.txIntervalMs, 11, oracle);
      ShapesAppend(check.events + setup.events, beacon.events);
      PrefixExtend(gate + init, Shapes(beacon.events), loop, []);
      assert gate + init + loop == gate + (init + loop);
    }
  }

  /** A prefix, with something in front and anything after, is still a prefix. */
  lemma PrefixExtend<T>(front: seq<T>, pre: seq<T>, s: seq<T>, after: seq<T>)
    requires pre <= s
    ensures front + pre <= front + (s + after)
  {
    assert (front + (s + after))[..|front + pre|] == front + pre;
  }

  /**
    Fail-fast end to end: a halted program ends at its failed transaction with
    every earlier one successful, and the program is still beaconing after n
    passes exactly when the transport answered all 2 + 9 + 3n transactions.
  */
  lemma MainFailFast(cfg: Config, n: nat, oracle: Oracle)
    ensures Main(cfg, n, oracle).terminal == Halted ==> EndsInFailure(Main(cfg, n, oracle).events)
    ensures Main(cfg, n, oracle).terminal == Beaconing <==> OkFrom(oracle, 0, 11 + 3 * n)
    ensures Shapes(Main(cfg, n, oracle).events) <= MainSteps(cfg, n)
  {
    var check := VerifyRadio(0, oracle);
    var setup := InitRadio(cfg.freqHz, 2, oracle);
    var b := Main(cfg, n, oracle);
    MainInOrder(cfg, n, oracle);
    OkFromSplit(oracle, 0, 2, 9 + 3 * n);
    OkFromSplit(oracle, 2, 9, 3 * n);
    if check.identity.None? {
      assert !OkFrom(oracle, 0, 2) by {
        assert !(oracle(0).Ok? && oracle(1).Ok?);
      }
      assert b.terminal == Spinning;
    } else {
      assert OkFrom(oracle, 0, 2);
      InitRadioFailFast(cfg.freqHz, 2, oracle);
      if setup.halted {
        SucceededAppend(check.events, setup.events);
        assert b == Boot(check.events + setup.events, Halted);
      } else {
        InitRadioIssues(cfg.freqHz, 2, oracle);
        var beacon := TxLoop(n, cfg.txIntervalMs, 11, oracle);
        assert b == Boot(check.events + setup.events + beacon.events, if beacon.halted then Halted else Beaconing);
        TxLoopFailFast(n, cfg.txIntervalMs, 11, oracle);
        assert b.terminal == Beaconing <==> OkFrom(oracle, 11, 3 * n);
        if beacon.halted {
          SucceededAppend(check.events, setup.events);
          SucceededAppend(check.events + setup.events, beacon.events);
        }
      }
    }
  }

  /**
    A program still beaconing after n passes has issued its whole program for
    those passes, every transaction answered, as soon as the transport answers
    the first 2 + 9 + 3n transactions; what it answers later does not matter.
  */
  lemma MainBeaconingComplete(cfg: Config, n: nat, oracle: Oracle)
    requires OkFrom(oracle, 0, 11 + 3 * n)
    ensures Main(cfg, n, oracle).terminal == Beaconing
    ensures Shapes(Main(cfg, n, oracle).events) == MainSteps(cfg, n)
    ensures AllSucceeded(Main(cfg, n, oracle).events)
  {
    MainFailFast(cfg, n, oracle);
    OkFromSplit(oracle, 0, 2, 9 + 3 * n);
    OkFromSplit(oracle, 2, 9, 3 * n);
    var check := VerifyRadio(0, oracle);
    var setup := InitRadio(cfg.freqHz, 2, oracle);
    InitRadioIssues(cfg.freqHz, 2, oracle);
    var beacon := TxLoop(n, cfg.txIntervalMs, 11, oracle);
    var loop := Repeat(Iteration(cfg.txIntervalMs), n);
    TxLoopIssues(n, cfg.txIntervalMs, 11, oracle);
    TxLoopIsRepeat(n, cfg.txIntervalMs, 11, oracle);
    ExecFailFast(loop, 11, oracle);
    assert Main(cfg, n, oracle).events == check.events + setup.events + beacon.events;
    ShapesAppend(check.events, setup.events);
    ShapesAppend(check.events + setup.events, beacon.events);
    SucceededAppend(check.events, setup.events);
    SucceededAppend(check.events + setup.events, beacon.events);
  }

  /**
    With a transport that never fails, the program reads the identity, runs
    `init_radio` in full, then n pulse-and-wait passes: one idle strobe before
    configuration, eight register writes, and idle, transmit, idle per pulse.
  */
  lemma MainReliable(cfg: Config, n: nat, oracle: Oracle)
    requires Reliable(oracle)
    ensures Main(cfg, n, oracle).terminal == Beaconing
    ensures Shapes(Main(cfg, n, oracle).events) == MainSteps(cfg, n)
    ensures Strobes(Shapes(Main(cfg, n, oracle).events)) == [SIDLE] + Repeat([SIDLE, STX, SIDLE], n)
    ensures WrittenRegs(Writes(Shapes(Main(cfg, n, oracle).events))) == ConfigOrder
  {
    var check := VerifyRadio(0, oracle);
    var setup := InitRadio(cfg.freqHz, 2, oracle);
    assert OkFrom(oracle, 2, 9) && OkFrom(oracle, 11, 3 * n);
    InitRadioIssues(cfg.freqHz, 2, oracle);
    var beacon := TxLoop(n, cfg.txIntervalMs, 11, oracle);
    TxLoopIssues(n, cfg.txIntervalMs, 11, oracle);
    ShapesAppend(check.events, setup.events);
    ShapesAppend(check.events + setup.events, beacon.events);
    var gate := Shapes(check.events);
    var init := InitSteps(cfg.freqHz);
    var loop := Repeat(Iteration(cfg.txIntervalMs), n);
    VerifyRadioOnlyReads(0, oracle);
    InitStepsFacts(cfg.freqHz);
    RepeatFacts(cfg.txIntervalMs, n);
    FiltersAppend(gate, init);
    FiltersAppend(gate + init, loop);
  }

  /**
    Spinning or halted is final, and more passes of the loop only add events at
    the end: the runs for n and n + 1 passes agree on everything n passes issued.
  */
  lemma MainExtends(cfg: Config, n: nat, oracle: Oracle)
    ensures Main(cfg, n, oracle).events <= Main(cfg, n + 1, oracle).events
    ensures Main(cfg, n, oracle).terminal != Beaconing ==> Main(cfg, n + 1, oracle) == Main(cfg, n, oracle)
  {
    var check := VerifyRadio(0, oracle);
    var setup := InitRadio(cfg.freqHz, 2, oracle);
    if check.identity.Some? && !setup.halted {
      var start := 2 + setup.calls;
      TxLoopExtends(n, cfg.txIntervalMs, start, oracle);
      var a := TxLoop(n, cfg.txIntervalMs, start, oracle);
      var b := TxLoop(n + 1, cfg.txIntervalMs, start, oracle);
      var front := check.events + setup.events;
      assert Main(cfg, n, oracle) == Boot(front + a.events, if a.halted then Halted else Beaconing);
      assert Main(cfg, n + 1, oracle) == Boot(front + b.events, if b.halted then Halted else Beaconing);
      PrefixExtend(front, a.events, b.events, []);
      assert b.events + [] == b.events;
    } else {
      assert Main(cfg, n, oracle) == Main(cfg, n + 1, oracle);
    }
  }

  /**
    The shipped configuration end to end: with a transport that never fails,
    the first three register writes put 0x76, 0xA2 and 0x10 in FREQ0, FREQ1 and
    FREQ2, the word 0x10A276 for 432.5 MHz.
  */
  lemma DefaultConfigFrequencyWrites(n: nat, oracle: Oracle)
    requires Reliable(oracle)
    ensures |Writes(Shapes(Main(DefaultConfig, n, oracle).events))| == 8
    ensures Writes(Shapes(Main(DefaultConfig, n, oracle).events))[..3]
         == [(FREQ0, Byte(0x76)), (FREQ1, Byte(0xA2)), (FREQ2, Byte(0x10))]
  {
    MainReliable(DefaultConfig, n, oracle);
    var init := InitSteps(DefaultConfig.freqHz);
    var gate := [Call(Read(PARTNUM)), Call(Read(VERSION))];
    var loop := Repeat(Iteration(DefaultConfig.txIntervalMs), n);
    DefaultInitWrites();
    assert gate == Shapes(VerifyRadio(0, oracle).events);
    VerifyRadioOnlyReads(0, oracle);
    RepeatFacts(DefaultConfig.txIntervalMs, n);
    FiltersAppend(gate, init);
    FiltersAppend(gate + init, loop);
    assert Writes(gate + init + loop) == Writes(init);
  }
}

=== FILE: cc1101.dfy ===
/**
  The part of the transceiver's register map the beacon touches, named symbolically.
  Addresses and command codes belong to the chip driver and are not modelled; the
  two configuration bytes built by the driver's bit-field builders are named by the
  settings they carry.
*/
module Cc1101 {
  import opened Base

  /** Command strobes: enter idle, enter transmit. */
  datatype Command = SIDLE | STX

  /** Configuration registers written during setup. */
  datatype ConfigReg = FREQ0 | FREQ1 | FREQ2 | MDMCFG2 | PKTCTRL0 | PKTLEN | IOCFG0 | IOCFG2

  /** Read-only status registers that identify the chip. */
  datatype StatusReg = PARTNUM | VERSION

  /** A value written to a configuration register. */
  datatype RegValue =
    | Byte(b: u8)
      /** MDMCFG2 at its defaults, with 2-FSK modulation and no sync-word check. */
    | Mdmcfg2FskNoSync
      /** PKTCTRL0 at its defaults, with variable packet length. */
    | Pktctrl0VariableLength

  /** One transaction on the register transport. */
  datatype Op =
    | Strobe(cmd: Command)
    | Write(reg: ConfigReg, value: RegValue)
    | Read(status: StatusReg)
}

=== FILE: radio.dfy ===
/**
  The beacon's radio control: the identity gate (`verify_radio`), the configuration
  sequence (`init_radio`) and one carrier pulse (`transmit_pulse`), each as the
  events it issues on the register transport.
*/
module Radio {
  import opened Base
  import opened Synth
  import opened Cc1101
  import opened Transport

  /** Startup configuration, fixed at build time; the target frequency is given in whole Hz. */
  datatype Config = Config(freqHz: u64, serialBaud: u32, txIntervalMs: u32)

  /** The shipped configuration: 432.5 MHz, 57600 baud, a pulse every 5 s. */
  const DefaultConfig: Config := Config(432_500_000, 57600, 5000)

  /** Wait after an idle strobe, in ms. */
  const SettleMs: u32 := 10

  /** Length of one carrier pulse, in ms. */
  const PulseMs: u32 := 100

  /** The eight register writes of `init_radio`, in order, with the values written. */
  function ConfigWrites(freqHz: u64): seq<(ConfigReg, RegValue)> {
    var regs := FrequencyRegisters(freqHz);
    [ (FREQ0, Byte(regs.freq0)),
      (FREQ1, Byte(regs.freq1)),
      (FREQ2, Byte(regs.freq2)),
      (MDMCFG2, Mdmcfg2FskNoSync),
      (PKTCTRL0, Pktctrl0VariableLength),
      (PKTLEN, Byte(255)),
      (IOCFG0, Byte(0x06)),
      (IOCFG2, Byte(0x29)) ]
  }

  /** The transactions and delays `init_radio` issues, in order: idle, settle, then the writes. */
  function InitSteps(freqHz: u64): seq<Instr> {
    [Call(Strobe(SIDLE)), DelayMs(SettleMs)] + WriteAll(ConfigWrites(freqHz))
  }

  /** The transactions and delays `transmit_pulse` issues, in order. */
  function PulseSteps(): seq<Instr> {
    [Call(Strobe(SIDLE)), DelayMs(SettleMs), Call(Strobe(STX)), DelayMs(PulseMs), Call(Strobe(SIDLE))]
  }

  /** The chip's part number and silicon version, as read at startup. */
  datatype Identity = Identity(partnum: u8, version: u8)

  /** The identity gate's events and, when both reads succeeded, what they read. */
  datatype Verification = Verification(events: seq<Event>, identity: Option<Identity>)

  /**
    `verify_radio`: reads PARTNUM and then VERSION, both unconditionally (the pair is
    evaluated before it is matched), and passes only if neither read failed. It
    unwraps nothing, so a failed read does not halt.
  */
  function VerifyRadio(start: nat, oracle: Oracle): (v: Verification)
    ensures Shapes(v.events) == [Call(Read(PARTNUM)), Call(Read(VERSION))]
    ensures v.events[0].reply == oracle(start) && v.events[1].reply == oracle(start + 1)
    ensures v.identity.Some? <==> oracle(start).Ok? && oracle(start + 1).Ok?
    ensures v.identity.Some? ==> v.identity.value == Identity(oracle(start).data, oracle(start + 1).data)
    ensures v.identity.Some? <==> AllSucceeded(v.events)
  {
    var partnum := oracle(start);
    var version := oracle(start + 1);
    var events := [Issued(Read(PARTNUM), partnum), Issued(Read(VERSION), version)];
    var identity :=
      match (partnum, version)
      case (Ok(p), Ok(r)) => Some(Identity(p, r))
      case _ => None;
    Verification(events, identity)
  }

  /** The identity gate issues two reads and nothing else: no strobe and no write. */
  lemma VerifyRadioOnlyReads(start: nat, oracle: Oracle)
    ensures CallCount(Shapes(VerifyRadio(start, oracle).events)) == 2
    ensures Reads(Shapes(VerifyRadio(start, oracle).events)) == [PARTNUM, VERSION]
    ensures Strobes(Shapes(VerifyRadio(start, oracle).events)) == []
    ensures Writes(Shapes(VerifyRadio(start, oracle).events)) == []
  {
    var p := Shapes(VerifyRadio(start, oracle).events);
    assert p == [Call(Read(PARTNUM)), Call(Read(VERSION))];
    assert p[1..] == [Call(Read(VERSION))];
    assert p[1..][1..] == [];
    assert CallCount(p[1..]) == 1 && Reads(p[1..]) == [VERSION];
    assert Strobes(p[1..]) == [] && Writes(p[1..]) == [];
  }

  /** `init_radio`: every transaction is unwrapped, so the first error halts. */
  function InitRadio(freqHz: u64, start: nat, oracle: Oracle): Run {
    Exec(InitSteps(freqHz), start, oracle)
  }

  /** `transmit_pulse`: every strobe is unwrapped, so the first error halts. */
  function TransmitPulse(start: nat, oracle: Oracle): Run {
    Exec(PulseSteps(), start, oracle)
  }

  /** Names of the registers written, in order. */
  function WrittenRegs(ws: seq<(ConfigReg, RegValue)>): (regs: seq<ConfigReg>)
    ensures |regs| == |ws|
  {
    seq(|ws|, i requires 0 <= i < |ws| => ws[i].0)
  }

  /** The eight register writes of `init_radio`, in order. */
  const ConfigOrder: seq<ConfigReg> := [FREQ0, FREQ1, FREQ2, MDMCFG2, PKTCTRL0, PKTLEN, IOCFG0, IOCFG2]

  /**
    What `init_radio` issues: one idle strobe and a 10 ms settle, then eight writes
    and nothing else; FREQ0-FREQ2 carry the synthesizer word for the target, the
    other five the fixed modem, packet and GDO settings.
  */
  lemma InitStepsFacts(freqHz: u64)
    ensures InitSteps(freqHz)[..2] == [Call(Strobe(SIDLE)), DelayMs(SettleMs)]
    ensures CallCount(InitSteps(freqHz)) == 9
    ensures Strobes(InitSteps(freqHz)) == [SIDLE]
    ensures Reads(InitSteps(freqHz)) == []
    ensures Delays(InitSteps(freqHz)) == [SettleMs]
    ensures Writes(InitSteps(freqHz)) == ConfigWrites(freqHz)
    ensures WrittenRegs(Writes(InitSteps(freqHz))) == ConfigOrder
    ensures var ws := Writes(InitSteps(freqHz));
              && ws[0].1.Byte? && ws[1].1.Byte? && ws[2].1.Byte?
              && ValidRegs(FreqRegs(ws[0].1.b, ws[1].1.b, ws[2].1.b))
              && Word(FreqRegs(ws[0].1.b, ws[1].1.b, ws[2].1.b)) == FreqValue(freqHz) as int % WordModulus
    ensures var ws := Writes(InitSteps(freqHz));
              && ws[3].1 == Mdmcfg2FskNoSync && ws[4].1 == Pktctrl0VariableLength
              && ws[5].1 == Byte(255) && ws[6].1 == Byte(0x06) && ws[7].1 == Byte(0x29)
  {
    var head := [Call(Strobe(SIDLE)), DelayMs(SettleMs)];
    WriteAllFilters(ConfigWrites(freqHz));
    FiltersAppend(head, WriteAll(ConfigWrites(freqHz)));
    assert head[1..] == [DelayMs(SettleMs)];
    assert Strobes(head) == [SIDLE] && CallCount(head) == 1;
    assert Writes(head) == [] && Reads(head) == [] && Delays(head) == [SettleMs];
    assert InitSteps(freqHz) == head + WriteAll(ConfigWrites(freqHz));
    assert Writes(InitSteps(freqHz)) == ConfigWrites(freqHz);
  }

  /** For the shipped 432.5 MHz, the first three writes of `init_radio` put 0x76, 0xA2, 0x10 in FREQ0-FREQ2. */
  lemma DefaultInitWrites()
    ensures |Writes(InitSteps(DefaultConfig.freqHz))| == 8
    ensures Writes(InitSteps(DefaultConfig.freqHz))[..3]
         == [(FREQ0, Byte(0x76)), (FREQ1, Byte(0xA2)), (FREQ2, Byte(0x10))]
  {
    DefaultFrequencyRegisters();
    InitStepsFacts(DefaultConfig.freqHz);
  }

  /**
    `init_radio` against the transport: it completes exactly when the transport
    answers its nine transactions; otherwise it halts at the first failure. Either
    way it issues a prefix of its sequence and never reads a register.
  */
  lemma InitRadioFailFast(freqHz: u64, start: nat, oracle: Oracle)
    ensures !InitRadio(freqHz, start, oracle).halted <==> OkFrom(oracle, start, 9)
    ensures InitRadio(freqHz, start, oracle).halted ==> EndsInFailure(InitRadio(freqHz, start, oracle).events)
    ensures Shapes(InitRadio(freqHz, start, oracle).events) <= InitSteps(freqHz)
    ensures Reads(Shapes(InitRadio(freqHz, start, oracle).events)) == []
  {
    InitStepsFacts(freqHz);
    ExecHaltsIff(InitSteps(freqHz), start, oracle);
    ExecFailFast(InitSteps(freqHz), start, oracle);
    ExecPrefix(InitSteps(freqHz), start, oracle);
    PrefixFilters(Shapes(InitRadio(freqHz, start, oracle).events), InitSteps(freqHz));
  }

  /**
    With a transport that answers its nine transactions, `init_radio` issues one
    idle strobe first, waits 10 ms, then writes the eight configuration registers
    in order, FREQ0-FREQ2 holding the word for the target frequency.
  */
  lemma InitRadioIssues(freqHz: u64, start: nat, oracle: Oracle)
    requires OkFrom(oracle, start, 9)
    ensures !InitRadio(freqHz, start, oracle).halted
    ensures AllSucceeded(InitRadio(freqHz, start, oracle).events)
    ensures InitRadio(freqHz, start, oracle).calls == 9
    ensures |InitRadio(freqHz, start, oracle).events| == 10
    ensures Shapes(InitRadio(freqHz, start, oracle).events) == InitSteps(freqHz)
    ensures Shapes(InitRadio(freqHz, start, oracle).events)[..2] == [Call(Strobe(SIDLE)), DelayMs(SettleMs)]
    ensures Strobes(Shapes(InitRadio(freqHz, start, oracle).events)) == [SIDLE]
    ensures WrittenRegs(Writes(Shapes(InitRadio(freqHz, start, oracle).events))) == ConfigOrder
    ensures var ws := Writes(Shapes(InitRadio(freqHz, start, oracle).events));
              && ws[0].1.Byte? && ws[1].1.Byte? && ws[2].1.Byte?
              && Word(FreqRegs(ws[0].1.b, ws[1].1.b, ws[2].1.b)) == FreqValue(freqHz) as int % WordModulus
  {
    InitStepsFacts(freqHz);
    InitRadioFailFast(freqHz, start, oracle);
    ExecFailFast(InitSteps(freqHz), start, oracle);
    ExecPrefix(InitSteps(freqHz), start, oracle);
    assert |InitSteps(freqHz)| == 10;
  }

  /** The pulse: idle, 10 ms, transmit, 100 ms, idle, with no register write or read. */
  lemma PulseStepsFacts()
    ensures CallCount(PulseSteps()) == 3
    ensures Strobes(PulseSteps()) == [SIDLE, STX, SIDLE]
    ensures Delays(PulseSteps()) == [SettleMs, PulseMs]
    ensures Writes(PulseSteps()) == [] && Reads(PulseSteps()) == []
  {
    var s := PulseSteps();
    assert s[4..][1..] == [];
    assert Writes(s[4..]) == [] && Reads(s[4..]) == [];
    assert CallCount(s[4..]) == 1 && Strobes(s[4..]) == [SIDLE] && Delays(s[4..]) == [];
    assert s[3..][1..] == s[4..];
    assert Writes(s[3..]) == [] && Reads(s[3..]) == [];
    assert CallCount(s[3..]) == 1 && Strobes(s[3..]) == [SIDLE] && Delays(s[3..]) == [PulseMs];
    assert s[2..][1..] == s[3..];
    assert Writes(s[2..]) == [] && Reads(s[2..]) == [];
    assert CallCount(s[2..]) == 2 && Strobes(s[2..]) == [STX, SIDLE] && Delays(s[2..]) == [PulseMs];
    assert s[1..][1..] == s[2..];
    assert Writes(s[1..]) == [] && Reads(s[1..]) == [];
    assert CallCount(s[1..]) == 2 && Strobes(s[1..]) == [STX, SIDLE] && Delays(s[1..]) == [SettleMs, PulseMs];
  }

  /**
    `transmit_pulse` against the transport: it completes exactly when its three
    strobes are answered, halts at the first failure, and never touches a register.
  */
  lemma TransmitPulseFailFast(start: nat, oracle: Oracle)
    ensures !TransmitPulse(start, oracle).halted <==> OkFrom(oracle, start, 3)
    ensures TransmitPulse(start, oracle).halted ==> EndsInFailure(TransmitPulse(start, oracle).events)
    ensures Shapes(TransmitPulse(start, oracle).events) <= PulseSteps()
    ensures Writes(Shapes(TransmitPulse(start, oracle).events)) == []
    ensures Reads(Shapes(TransmitPulse(start, oracle).events)) == []
  {
    PulseStepsFacts();
    ExecHaltsIff(PulseSteps(), start, oracle);
    ExecFailFast(PulseSteps(), start, oracle);
    ExecPrefix(PulseSteps(), start, oracle);
    PrefixFilters(Shapes(TransmitPulse(start, oracle).events), PulseSteps());
  }

  /**
    With its three strobes answered, a pulse is: idle strobe, 10 ms, transmit
    strobe, 100 ms held in transmit, idle strobe.
  */
  lemma TransmitPulseIssues(start: nat, oracle: Oracle)
    requires OkFrom(oracle, start, 3)
    ensures !TransmitPulse(start, oracle).halted
    ensures TransmitPulse(start, oracle).calls == 3
    ensures AllSucceeded(TransmitPulse(start, oracle).events)
    ensures var es := TransmitPulse(start, oracle).events;
              && |es| == 5
              && Shape(es[0]) == Call(Strobe(SIDLE))
              && es[1] == Delayed(SettleMs)
              && Shape(es[2]) == Call(Strobe(STX))
              && es[3] == Delayed(PulseMs)
              && Shape(es[4]) == Call(Strobe(SIDLE))
  {
    PulseStepsFacts();
    TransmitPulseFailFast(start, oracle);
    ExecPrefix(PulseSteps(), start, oracle);
    ExecFailFast(PulseSteps(), start, oracle);
  }
}

=== FILE: synth.dfy ===
/**
  The frequency-synthesizer calculator: `RadioConfig::frequency_registers`.

  The carrier frequency of the transceiver is FREQ * f_xosc / 2^16, where FREQ is
  a 22-bit word held in the three registers FREQ2:FREQ1:FREQ0. The calculator
  goes the other way, from a target frequency in Hz to the three register bytes.
  Its input here is the frequency already converted to a whole number of Hz (a u64).
*/
module Synth {
  import opened Base

  /** Crystal reference frequency of the transceiver, in Hz. */
  const FXosc: int := 26_000_000

  /** FREQ counts steps of f_xosc / 2^16. */
  const FreqScale: int := 0x1_0000

  /** FREQ2 keeps six bits, so the synthesizer word has 22. */
  const WordModulus: int := 0x40_0000

  /** Below this, `freq_hz * 65536` fits in a u64 (2^64 / 2^16). */
  const NoWrapLimit: int := 0x1_0000_0000_0000

  /** The largest frequency whose word still fits in 22 bits, plus one: 2^22 * f_xosc / 2^16. */
  const WordLimitHz: int := 1_664_000_000

  datatype FreqRegs = FreqRegs(freq0: u8, freq1: u8, freq2: u8)

  /** A register triple the hardware can hold unchanged: the top two bits of FREQ2 are clear. */
  predicate ValidRegs(r: FreqRegs) {
    r.freq2 < 64
  }

  /** The synthesizer word the three registers spell, FREQ2 being the high byte. */
  function Word(r: FreqRegs): nat {
    r.freq2 as nat * 0x1_0000 + r.freq1 as nat * 0x100 + r.freq0 as nat
  }

  /** The carrier frequency, in whole Hz (rounded down), that a register triple selects. */
  function SynthesizedHz(r: FreqRegs): nat {
    Word(r) * FXosc / FreqScale
  }

  /**
    `freq_hz * 65536 / 26_000_000` on u64: the product wraps modulo 2^64 (arithmetic
    without overflow checks) and the division truncates.
  */
  function FreqValue(freqHz: u64): (v: u64)
    ensures v as int * FXosc <= (freqHz as int * FreqScale) % U64Modulus < (v as int + 1) * FXosc
    ensures freqHz as int < NoWrapLimit ==>
              v as int * FXosc <= freqHz as int * FreqScale < (v as int + 1) * FXosc
  {
    var product := (freqHz as int * FreqScale) % U64Modulus;
    assert product / FXosc <= product;
    (product / FXosc) as u64
  }

  /**
    The byte fields taken from a word: bits 0-7, bits 8-15 and bits 16-21
    (`v & 0xFF`, `(v >> 8) & 0xFF`, `(v >> 16) & 0x3F`; for an unsigned v,
    masking with 2^k - 1 is `% 2^k` and shifting right by k is `/ 2^k`).
  */
  function Split(v: nat): (r: FreqRegs)
    ensures ValidRegs(r)
    ensures Word(r) == v % WordModulus
  {
    var r := FreqRegs((v % 0x100) as u8, (v / 0x100 % 0x100) as u8, (v / 0x1_0000 % 0x40) as u8);
    SplitWord(v);
    r
  }

  /** The arithmetic behind Split's contract: the three fields reassemble the low 22 bits. */
  lemma SplitWord(v: nat)
    ensures (v / 0x1_0000 % 0x40) * 0x1_0000 + (v / 0x100 % 0x100) * 0x100 + v % 0x100 == v % WordModulus
  {
    var lo := v % 0x100;
    var q := v / 0x100;
    assert v == q * 0x100 + lo;
    var mid := q % 0x100;
    var q2 := q / 0x100;
    assert q == q2 * 0x100 + mid;
    assert v / 0x1_0000 == q2 by {
      assert v == q2 * 0x1_0000 + (mid * 0x100 + lo);
    }
    var hi := q2 % 0x40;
    var q3 := q2 / 0x40;
    assert q2 == q3 * 0x40 + hi;
    assert v == q3 * WordModulus + (hi * 0x1_0000 + mid * 0x100 + lo);
    assert 0 <= hi * 0x1_0000 + mid * 0x100 + lo < WordModulus;
  }

  /** `frequency_registers`: the register triple for a target frequency in Hz. */
  function FrequencyRegisters(freqHz: u64): (r: FreqRegs)
    ensures ValidRegs(r)
    ensures Word(r) == FreqValue(freqHz) as int % WordModulus
  {
    Split(FreqValue(freqHz) as nat)
  }

  /** The register triple determines the word: splitting what the registers spell gives them back. */
  lemma SplitWordRoundTrip(r: FreqRegs)
    requires ValidRegs(r)
    ensures Split(Word(r)) == r
  {
    var w := Word(r);
    var f0, f1, f2 := r.freq0 as int, r.freq1 as int, r.freq2 as int;
    assert w == (f2 * 0x100 + f1) * 0x100 + f0;
    assert w % 0x100 == f0 && w / 0x100 == f2 * 0x100 + f1;
    assert (f2 * 0x100 + f1) % 0x100 == f1 && (f2 * 0x100 + f1) / 0x100 == f2;
    assert w / 0x1_0000 == (w / 0x100) / 0x100;
    assert Split(w).freq0 == r.freq0;
    assert Split(w).freq1 == r.freq1;
    assert Split(w).freq2 == r.freq2;
  }

  /** Truncating division by a positive constant never reverses the order of its arguments. */
  lemma FreqValueMonotone(a: u64, b: u64)
    requires a <= b
    requires (b as int) < NoWrapLimit
    ensures FreqValue(a) <= FreqValue(b)
  {
    var va, vb := FreqValue(a) as int, FreqValue(b) as int;
    assert va * FXosc <= a as int * FreqScale <= b as int * FreqScale < (vb + 1) * FXosc;
    assert va * FXosc < (vb + 1) * FXosc;
  }

  /**
    The word fits in the 22 register bits exactly when the target is below
    1.664 GHz (for every target whose scaled product does not wrap).
  */
  lemma WordFitsIff(freqHz: u64)
    requires (freqHz as int) < NoWrapLimit
    ensures FreqValue(freqHz) as int < WordModulus <==> (freqHz as int) < WordLimitHz
  {
    var v := FreqValue(freqHz) as int;
    assert WordModulus * FXosc == WordLimitHz * FreqScale;
    if v < WordModulus {
      assert freqHz as int * FreqScale < (v + 1) * FXosc <= WordModulus * FXosc;
    } else {
      assert WordModulus * FXosc <= v * FXosc <= freqHz as int * FreqScale;
    }
  }

  /**
    Below 1.664 GHz the registers hold the computed word exactly, and the frequency
    they select undershoots the target by less than one step f_xosc / 2^16 (about 396.7 Hz):
    in scaled units, 0 <= freq_hz * 2^16 - FREQ * f_xosc < f_xosc.
  */
  lemma ExactBelowLimit(freqHz: u64)
    requires (freqHz as int) < WordLimitHz
    ensures Word(FrequencyRegisters(freqHz)) == FreqValue(freqHz) as int
    ensures 0 <= freqHz as int * FreqScale - Word(FrequencyRegisters(freqHz)) * FXosc < FXosc
  {
    WordFitsIff(freqHz);
    var v := FreqValue(freqHz) as int;
    assert v < WordModulus;
    assert v % WordModulus == v;
    assert Word(FrequencyRegisters(freqHz)) == v;
    assert v * FXosc <= freqHz as int * FreqScale < v * FXosc + FXosc;
  }

  /** The same bound in whole Hz: the synthesized frequency is at most 397 Hz below the target. */
  lemma UndershootBound(freqHz: u64)
    requires (freqHz as int) < WordLimitHz
    ensures SynthesizedHz(FrequencyRegisters(freqHz)) <= freqHz as int <= SynthesizedHz(FrequencyRegisters(freqHz)) + 397
  {
    ExactBelowLimit(freqHz);
    var w := Word(FrequencyRegisters(freqHz));
    var f := freqHz as int;
    var s := SynthesizedHz(FrequencyRegisters(freqHz));
    assert s * FreqScale <= w * FXosc < (s + 1) * FreqScale;
    assert f * FreqScale < w * FXosc + FXosc < (s + 1) * FreqScale + FXosc;
    assert FXosc < 397 * FreqScale;
    assert f * FreqScale < (s + 398) * FreqScale;
    assert s * FreqScale <= f * FreqScale;
  }

  /** The bands the transceiver supports: 300-348, 387-464 and 779-928 MHz. */
  predicate InSupportedBand(freqHz: u64) {
    || 300_000_000 <= freqHz <= 348_000_000
    || 387_000_000 <= freqHz <= 464_000_000
    || 779_000_000 <= freqHz <= 928_000_000
  }

  /**
    In every supported band the registers hold the word exactly, and FREQ2 lies
    between 0x0B (300 MHz) and 0x23 (928 MHz).
  */
  lemma SupportedBandRegisters(freqHz: u64)
    requires InSupportedBand(freqHz)
    ensures Word(FrequencyRegisters(freqHz)) == FreqValue(freqHz) as int
    ensures 0x0B <= FrequencyRegisters(freqHz).freq2 <= 0x23
  {
    ExactBelowLimit(freqHz);
    FreqValueMonotone(300_000_000, freqHz);
    FreqValueMonotone(freqHz, 928_000_000);
    assert FreqValue(300_000_000) == 0x0B_89D8;
    assert FreqValue(928_000_000) == 0x23_B13B;
    var v := FreqValue(freqHz) as int;
    assert FrequencyRegisters(freqHz).freq2 as int == v / 0x1_0000 % 0x40;
    assert 0x0B <= v / 0x1_0000 <= 0x23;
  }

  /** The configured 432.5 MHz gives FREQ = 0x10A276. */
  lemma DefaultFrequencyRegisters()
    ensures FreqValue(432_500_000) == 0x10_A276
    ensures FrequencyRegisters(432_500_000) == FreqRegs(0x76, 0xA2, 0x10)
  {
    SplitWordRoundTrip(FreqRegs(0x76, 0xA2, 0x10));
  }

  /** The alternative 433.5 MHz gives FREQ = 0x10AC4E. */
  lemma AlternativeFrequencyRegisters()
    ensures FreqValue(433_500_000) == 0x10_AC4E
    ensures FrequencyRegisters(433_500_000) == FreqRegs(0x4E, 0xAC, 0x10)
  {
    SplitWordRoundTrip(FreqRegs(0x4E, 0xAC, 0x10));
  }
}

=== FILE: transport.dfy ===
/**
  The register transport as an oracle, and fail-fast execution of a straight-line
  sequence of transactions and delays.

  The oracle answers the k-th transaction (counting from 0, delays not counted).
  Every transaction whose result is unwrapped halts the program on an error (a
  panic that halts the processor), so the first error ends the run: the failing
  transaction is the last event, and nothing after it is issued.
*/
module Transport {
  import opened Base
  import opened Cc1101

  /** The transport's answer to one transaction; `data` is the byte read (ignored for writes and strobes). */
  datatype Reply = Ok(data: u8) | Err

  /** The transport's answers, by transaction index. */
  type Oracle = nat -> Reply

  /** One step of a straight-line program: a transaction, or a blocking delay in milliseconds. */
  datatype Instr = Call(op: Op) | DelayMs(ms: u32)

  /** One observable event: a transaction with the answer it got, or a delay. */
  datatype Event = Issued(op: Op, reply: Reply) | Delayed(ms: u32)

  /** What a run did: its events, how many transactions it issued, and whether it halted. */
  datatype Run = Run(events: seq<Event>, calls: nat, halted: bool)

  /** The transport answers every transaction in [start, start + n) without error. */
  predicate OkFrom(oracle: Oracle, start: nat, n: nat) {
    forall k: nat :: start <= k < start + n ==> oracle(k).Ok?
  }

  /** An answered stretch of transactions splits into two answered stretches, and back. */
  lemma OkFromSplit(oracle: Oracle, start: nat, a: nat, b: nat)
    ensures OkFrom(oracle, start, a + b) <==> OkFrom(oracle, start, a) && OkFrom(oracle, start + a, b)
  {
    if OkFrom(oracle, start, a) && OkFrom(oracle, start + a, b) {
      forall k: nat | start <= k < start + a + b
        ensures oracle(k).Ok?
      {
        if k >= start + a {
          assert start + a <= k < start + a + b;
        }
      }
    }
  }

  /** The transport never fails. */
  ghost predicate Reliable(oracle: Oracle) {
    forall k: nat :: oracle(k).Ok?
  }

  /** The instruction an event came from. */
  function Shape(e: Event): Instr {
    match e
    case Issued(op, _) => Call(op)
    case Delayed(ms) => DelayMs(ms)
  }

  /** The instructions a sequence of events came from. */
  function Shapes(es: seq<Event>): (p: seq<Instr>)
    ensures |p| == |es|
    ensures forall i :: 0 <= i < |es| ==> p[i] == Shape(es[i])
  {
    seq(|es|, i requires 0 <= i < |es| => Shape(es[i]))
  }

  predicate Succeeded(e: Event) {
    e.Issued? ==> e.reply.Ok?
  }

  /** No event in the sequence is a failed transaction. */
  predicate AllSucceeded(es: seq<Event>) {
    forall i :: 0 <= i < |es| ==> Succeeded(es[i])
  }

  /** The run stopped at a failed transaction, which is its last event, and every earlier one succeeded. */
  predicate EndsInFailure(es: seq<Event>) {
    && |es| > 0
    && es[|es| - 1].Issued? && es[|es| - 1].reply.Err?
    && AllSucceeded(es[..|es| - 1])
  }

  /** Number of transactions in a program. */
  function CallCount(p: seq<Instr>): nat {
    if |p| == 0 then 0 else (if p[0].Call? then 1 else 0) + CallCount(p[1..])
  }

  /** The strobes a program issues, in order. */
  function Strobes(p: seq<Instr>): seq<Command> {
    if |p| == 0 then []
    else if p[0].Call? && p[0].op.Strobe? then [p[0].op.cmd] + Strobes(p[1..])
    else Strobes(p[1..])
  }

  /** The register writes a program issues, in order. */
  function Writes(p: seq<Instr>): seq<(ConfigReg, RegValue)> {
    if |p| == 0 then []
    else if p[0].Call? && p[0].op.Write? then [(p[0].op.reg, p[0].op.value)] + Writes(p[1..])
    else Writes(p[1..])
  }

  /** The register reads a program issues, in order. */
  function Reads(p: seq<Instr>): seq<StatusReg> {
    if |p| == 0 then []
    else if p[0].Call? && p[0].op.Read? then [p[0].op.status] + Reads(p[1..])
    else Reads(p[1..])
  }

  /** The delays a program waits, in order. */
  function Delays(p: seq<Instr>): seq<u32> {
    if |p| == 0 then []
    else if p[0].DelayMs? then [p[0].ms] + Delays(p[1..])
    else Delays(p[1..])
  }

  /** Prepending one successful event keeps a run's success facts. */
  lemma ConsFacts(e: Event, x: Instr, es: seq<Event>, p: seq<Instr>)
    requires Shape(e) == x && Succeeded(e)
    ensures Shapes(es) <= p ==> Shapes([e] + es) <= [x] + p
    ensures AllSucceeded(es) ==> AllSucceeded([e] + es)
    ensures EndsInFailure(es) ==> EndsInFailure([e] + es)
  {
    ShapesAppend([e], es);
    if EndsInFailure(es) {
      assert ([e] + es)[..|es|] == [e] + es[..|es| - 1];
    }
  }

  lemma ShapesAppend(a: seq<Event>, b: seq<Event>)
    ensures Shapes(a + b) == Shapes(a) + Shapes(b)
  {
  }

  /** Counting and filtering a program distribute over concatenation. */
  lemma {:induction false} FiltersAppend(p: seq<Instr>, q: seq<Instr>)
    ensures CallCount(p + q) == CallCount(p) + CallCount(q)
    ensures Strobes(p + q) == Strobes(p) + Strobes(q)
    ensures Writes(p + q) == Writes(p) + Writes(q)
    ensures Reads(p + q) == Reads(p) + Reads(q)
    ensures Delays(p + q) == Delays(p) + Delays(q)
    decreases |p|
  {
    if |p| > 0 {
      assert (p + q)[0] == p[0];
      assert (p + q)[1..] == p[1..] + q;
      FiltersAppend(p[1..], q);
    } else {
      assert p + q == q;
    }
  }

  /** The program that writes the given registers in order, and does nothing else. */
  function WriteAll(ws: seq<(ConfigReg, RegValue)>): (p: seq<Instr>)
    ensures |p| == |ws|
    ensures forall i :: 0 <= i < |ws| ==> p[i] == Call(Write(ws[i].0, ws[i].1))
  {
    seq(|ws|, i requires 0 <= i < |ws| => Call(Write(ws[i].0, ws[i].1)))
  }

  /** A program of register writes issues nothing else, and writes exactly its list. */
  lemma {:induction false} WriteAllFilters(ws: seq<(ConfigReg, RegValue)>)
    ensures CallCount(WriteAll(ws)) == |ws|
    ensures Strobes(WriteAll(ws)) == [] && Reads(WriteAll(ws)) == [] && Delays(WriteAll(ws)) == []
    ensures Writes(WriteAll(ws)) == ws
    decreases |ws|
  {
    if |ws| > 0 {
      assert WriteAll(ws)[1..] == WriteAll(ws[1..]);
      WriteAllFilters(ws[1..]);
      assert ws == [ws[0]] + ws[1..];
    }
  }

  /** Whatever a program does not issue, no prefix of it issues either. */
  lemma PrefixFilters(pre: seq<Instr>, p: seq<Instr>)
    requires pre <= p
    ensures Strobes(p) == [] ==> Strobes(pre) == []
    ensures Writes(p) == [] ==> Writes(pre) == []
    ensures Reads(p) == [] ==> Reads(pre) == []
  {
    assert p == pre + p[|pre|..];
    FiltersAppend(pre, p[|pre|..]);
  }

  /** Whether the transport refuses instruction i when it is the transaction at index k. */
  predicate Fails(i: Instr, k: nat, oracle: Oracle) {
    i.Call? && oracle(k).Err?
  }

  /** The event instruction i produces when its transaction (if any) has index k. */
  function Record(i: Instr, k: nat, oracle: Oracle): Event {
    match i
    case Call(op) => Issued(op, oracle(k))
    case DelayMs(ms) => Delayed(ms)
  }

  /** The index of the next transaction after instruction i. */
  function After(i: Instr, k: nat): nat {
    if i.Call? then k + 1 else k
  }

  /** A run preceded by one more successful event. */
  function Cons(e: Event, r: Run): Run {
    Run([e] + r.events, (if e.Issued? then 1 else 0) + r.calls, r.halted)
  }

  /**
    Runs a straight-line program against the transport with fail-fast semantics,
    the k-th transaction being answered by `oracle(start + k)`.
  */
  function Exec(p: seq<Instr>, start: nat, oracle: Oracle): Run
    decreases |p|
  {
    if |p| == 0 then Run([], 0, false)
    else if Fails(p[0], start, oracle) then Run([Issued(p[0].op, Err)], 1, true)
    else Cons(Record(p[0], start, oracle), Exec(p[1..], After(p[0], start), oracle))
  }

  /**
    A run issues a prefix of its program, in order, and counts the transactions it issued.
  */
  lemma {:induction false} ExecPrefix(p: seq<Instr>, start: nat, oracle: Oracle)
    ensures Shapes(Exec(p, start, oracle).events) <= p
    ensures Exec(p, start, oracle).calls == CallCount(Shapes(Exec(p, start, oracle).events))
    decreases |p|
  {
    if |p| > 0 {
      var next := After(p[0], start);
      var rest := Exec(p[1..], next, oracle);
      ExecPrefix(p[1..], next, oracle);
      assert p == [p[0]] + p[1..];
      if !Fails(p[0], start, oracle) {
        var e := Record(p[0], start, oracle);
        ShapesAppend([e], rest.events);
        ConsFacts(e, p[0], rest.events, p[1..]);
        assert Shapes([e] + rest.events)[1..] == Shapes(rest.events);
      }
    }
  }

  /** A run halts exactly when one of the program's transactions gets an error from the transport. */
  lemma {:induction false} ExecHaltsIff(p: seq<Instr>, start: nat, oracle: Oracle)
    ensures !Exec(p, start, oracle).halted <==> OkFrom(oracle, start, CallCount(p))
    decreases |p|
  {
    if |p| > 0 {
      var next := After(p[0], start);
      ExecHaltsIff(p[1..], next, oracle);
      if !Fails(p[0], start, oracle) {
        assert OkFrom(oracle, start, CallCount(p)) <==> OkFrom(oracle, next, CallCount(p[1..]));
      } else {
        assert !OkFrom(oracle, start, CallCount(p));
      }
    }
  }

  /**
    Fail-fast: a halted run ends at its failed transaction with every earlier one
    successful; a run that did not halt issued the whole program without error.
  */
  lemma {:induction false} ExecFailFast(p: seq<Instr>, start: nat, oracle: Oracle)
    ensures !Exec(p, start, oracle).halted ==>
              Shapes(Exec(p, start, oracle).events) == p && AllSucceeded(Exec(p, start, oracle).events)
    ensures Exec(p, start, oracle).halted ==> EndsInFailure(Exec(p, start, oracle).events)
    decreases |p|
  {
    if |p| > 0 {
      var next := After(p[0], start);
      var rest := Exec(p[1..], next, oracle);
      ExecFailFast(p[1..], next, oracle);
      assert p == [p[0]] + p[1..];
      if !Fails(p[0], start, oracle) {
        var e := Record(p[0], start, oracle);
        ConsFacts(e, p[0], rest.events, p[1..]);
      } else {
        assert [Issued(p[0].op, Err)][..0] == [];
      }
    }
  }

  /** Success facts survive putting successful events in front. */
  lemma SucceededAppend(a: seq<Event>, b: seq<Event>)
    requires AllSucceeded(a)
    ensures AllSucceeded(b) ==> AllSucceeded(a + b)
    ensures EndsInFailure(b) ==> EndsInFailure(a + b)
  {
    if EndsInFailure(b) {
      assert (a + b)[..|a + b| - 1] == a + b[..|b| - 1];
    }
  }

  /** A run that did not halt, followed by the run of whatever comes next. */
  function Then(first: Run, second: Run): Run {
    Run(first.events + second.events, first.calls + second.calls, second.halted)
  }

  /** Prepending an event commutes with following a run by another. */
  lemma ConsThen(e: Event, first: Run, second: Run)
    ensures Cons(e, Then(first, second)) == Then(Cons(e, first), second)
  {
    assert [e] + (first.events + second.events) == ([e] + first.events) + second.events;
  }

  /**
    Running p then q is running p and, unless p halted, running q against the
    answers after p's transactions; a halted run issues nothing more.
  */
  lemma {:induction false} ExecAppend(p: seq<Instr>, q: seq<Instr>, start: nat, oracle: Oracle)
    ensures Exec(p + q, start, oracle)
         == if Exec(p, start, oracle).halted then Exec(p, start, oracle)
            else Then(Exec(p, start, oracle), Exec(q, start + Exec(p, start, oracle).calls, oracle))
    decreases |p|
  {
    if |p| == 0 {
      assert p + q == q;
      assert [] + Exec(q, start, oracle).events == Exec(q, start, oracle).events;
    } else {
      assert (p + q)[0] == p[0];
      assert (p + q)[1..] == p[1..] + q;
      if !Fails(p[0], start, oracle) {
        var e := Record(p[0], start, oracle);
        var next := After(p[0], start);
        var rest := Exec(p[1..], next, oracle);
        ExecAppend(p[1..], q, next, oracle);
        if !rest.halted {
          ConsThen(e, rest, Exec(q, next + rest.calls, oracle));
        }
      }
    }
  }

  /** Against a transport that never fails, a program runs to completion, issuing exactly its instructions. */
  lemma {:induction false} ExecReliable(p: seq<Instr>, start: nat, oracle: Oracle)
    requires Reliable(oracle)
    ensures !Exec(p, start, oracle).halted
    ensures Shapes(Exec(p, start, oracle).events) == p
    ensures Exec(p, start, oracle).calls == CallCount(p)
  {
    assert OkFrom(oracle, start, CallCount(p));
    ExecHaltsIff(p, start, oracle);
    ExecFailFast(p, start, oracle);
    ExecPrefix(p, start, oracle);
  }
}
